=== FILE: README.md ===
# Convex hull: brute force and monotone chain

A model of the two convex-hull computations of the side-by-side demo
window in `tugas1/main.cpp`:

- `cross`, the orientation test: twice the signed area of a triangle.
- `Edge` and its ordering. The edge sets are `std::set<Edge>` keyed on that ordering.
- `computeSlowHull`, the brute force. A pair (i, j) with i < j becomes an edge unless one
  other point has `cross(p[i], p[j], p[k])` above 1e-9 and another has it below -1e-9.
  The threshold bounds the cross product, which is the distance from the line times
  |p[j] - p[i]|, not the distance itself. The
  counter goes up once per inspected k, and the scan over k stops when both sides have
  been seen.
- `computeFastHull`, Andrew's monotone chain:
  - the point indices are sorted by x, then y;
  - a lower chain is built left to right on a stack, popping while the top two entries
    do not turn strictly left with the candidate (`cross <= 0`, no epsilon);
  - an upper chain is built right to left on the same stack, popping only while it
    holds at least t = |lower| + 1 entries;
  - the last entry is dropped, and one `(min, max)` edge is emitted per consecutive
    pair of the closed vertex sequence;
  - the counter goes up once per `cross` evaluated in the two pop conditions.

Modules:

- `Geometry`: points, `Cross`, `Edge`, `EdgeLess` and the canonical `MkEdge`.
- `SlowHull`: the brute force as a method with loops. Reference definitions of the
  edge test (`IsSlowEdge`, `SlowEdges`) and of the counter (`KStop`, `PairSteps`,
  `StepsBefore`) sit next to it, with lemmas about both.
- `IndexSort`: the comparator and a sort of the index vector.
- `FastHull`: the monotone chain on `seq<int>` stacks. Recursive reference definitions
  of the pop loop (`Popped`), of a chain (`ChainFrom`), of the whole stack
  (`ChainStack`) and of the closed vertex sequence (`HullCycle`) sit next to the loops,
  which are proved equal to them.
- `ReferenceInput`: the eight points the window hands to both hulls, and the
  brute-force hull they produce.

Each algorithm returns `(edges, count)`. The source writes these into the canvas
objects instead. `FastHull.ComputeFastHull` also returns its intermediate results so
that its contract can describe them: the sorted index vector, the closed vertex
sequence, the threshold t and, as a ghost result, the number of `cross` evaluations.

Coordinates are exact reals. The brute-force threshold is the exact constant 1/10^9.

Two behaviours of the code are easy to miss:

- Two points give the edge (0, 1) in both algorithms. The brute force has no third
  point that could rule the pair out.
- The brute-force counter stops at the `break`, so a pair that is ruled out early
  adds fewer than n.

The counter is maximal (n · n(n-1)/2) exactly when no pair sees both signs among
k <= n - 2 (`SlowHull.SlowCountMaximal`). A scan that sees both signs only at
k = n - 1 still counts n, so a maximal counter does not mean every pair is an edge. On
(0,0), (1,0), (0,1), (0,-1) every scan runs to the end and the counter is maximal, yet
(0, 1) is not an edge (`SlowHull.FullCountDespiteLateBreak`).

The counter's source comment says it counts cross products. In fact it counts loop
iterations, including the two with k = i and k = j, which compute nothing.
`SlowHull.PairSteps` models the code.

## Model

| member | source | states |
|---|---|---|
| Geometry.Cross | tugas1/main.cpp:21-23 | no contract: its body is the source expression, twice the signed area of a, b, c; `CrossAntisymmetric`, `CrossCyclic` and `CrossDegenerate` characterise it |
| Geometry.CrossAntisymmetric | tugas1/main.cpp:21-23 | swapping the first two corners negates the orientation |
| Geometry.CrossCyclic | tugas1/main.cpp:21-23 | the orientation is unchanged by a cyclic shift of the three corners |
| Geometry.CrossDegenerate | tugas1/main.cpp:21-23 | a triangle with two equal corners has orientation 0 |
| Geometry.EdgeLess | tugas1/main.cpp:15-18 | no contract: its body is `operator<`, lexicographic on (i, j); `EdgeLessIsStrictTotalOrder` characterises it |
| Geometry.EdgeLessIsStrictTotalOrder | tugas1/main.cpp:13-19 | `operator<` is irreflexive and transitive, and two edges are unordered exactly when they are equal, so the edge set deduplicates exactly the equal edges |
| Geometry.MkEdge | tugas1/main.cpp:124 | the canonical edge has i <= j and the same two endpoints as the pair |
| Geometry.MkEdgeSymmetric | tugas1/main.cpp:182 | both orientations of a pair give the same edge |
| SlowHull.ScanPair | tugas1/main.cpp:114-122 | the scan over k reports both signs exactly when the pair fails the edge test, and makes KStop + 1 increments |
| SlowHull.SeenStep | tugas1/main.cpp:117-120 | inspecting index k adds a sign exactly when k is a third point whose `cross` is above Eps (for the positive sign) or below -Eps (for the negative sign) |
| SlowHull.ComputeSlowHull | tugas1/main.cpp:107-129 | every edge has 0 <= i < j < n; (i, j) is an edge exactly when no two other points lie strictly on opposite sides; the counter is the sum of KStop + 1 over all pairs and lies in [0, n · n(n-1)/2] |
| SlowHull.KStopCharacterised | tugas1/main.cpp:115-121 | the break index lies in [0, n-1]; both signs have been seen at it when it is below n-1; they have not been seen at any earlier index |
| SlowHull.FirstBothFrom | tugas1/main.cpp:115-121 | the first index from k on at which both signs have been seen is bounded by n-1, and no earlier index from k on has both |
| SlowHull.BothBeforeMonotone | tugas1/main.cpp:119-121 | once both signs have been seen they stay seen, so the break fires at most once |
| SlowHull.PairStepsFull | tugas1/main.cpp:115-121 | a pair makes n increments exactly when both signs are not already seen among k <= n-2 |
| SlowHull.RowStepsBounded | tugas1/main.cpp:113-127 | the increments of one row of pairs are at most n per pair, with equality exactly when no pair of the row breaks early |
| SlowHull.StepsBounded | tugas1/main.cpp:112-128 | the increments of the first i rows are at most n per pair, with equality exactly when none of their pairs breaks early |
| SlowHull.FullRowClosedForm | tugas1/main.cpp:113-127 | n increments for each of the j-i-1 pairs of a row prefix give n(j-i-1) |
| SlowHull.FullStepsClosedForm | tugas1/main.cpp:112-128 | n increments per pair over the first i rows give n times their number of pairs |
| SlowHull.PairsBeforeClosedForm | tugas1/main.cpp:112-113 | the first i rows hold i(2n-1-i)/2 pairs, n(n-1)/2 in all |
| SlowHull.MaxSlowCountIsFullSteps | tugas1/main.cpp:112-116 | n increments for every pair give n · n(n-1)/2 |
| SlowHull.SlowCountMaximal | tugas1/main.cpp:110-121 | the counter equals n · n(n-1)/2 exactly when no pair sees both signs among k <= n-2 |
| SlowHull.LateBreakPairOneSided | tugas1/main.cpp:115-121 | on the four witness points no pair sees both signs among k <= 2 |
| SlowHull.FullCountDespiteLateBreak | tugas1/main.cpp:115-123 | on four concrete points the counter is maximal although a pair is rejected, because its break fires at the last index |
| SlowHull.AllEdgesGivesMaxCount | tugas1/main.cpp:115-126 | when every pair is an edge, no scan breaks and the counter is maximal |
| SlowHull.OppositeSidesNotEdge | tugas1/main.cpp:118-123 | two other points strictly on opposite sides rule a pair out |
| SlowHull.SlowEdgeIffOneSide | tugas1/main.cpp:118-126 | a pair is an edge exactly when every other point has `cross` >= -Eps, or every other point has `cross` <= Eps |
| SlowHull.SlowEdgeSymmetric | tugas1/main.cpp:118-124 | the edge test gives the same answer for (i, j) and (j, i), so storing (min, max) loses nothing |
| SlowHull.SlowEdgesSmall | tugas1/main.cpp:112-126 | fewer than two points give no edge; two points give exactly (0, 1) |
| SlowHull.CollinearEveryPairIsEdge | tugas1/main.cpp:118-126 | when all points are collinear, every pair is an edge |
| IndexSort.PointLess | tugas1/main.cpp:140-144 | no contract: its body is the sort comparator, x first and y on equal x; `PointLessIsStrictTotalOrder` characterises it |
| IndexSort.PointLessIsStrictTotalOrder | tugas1/main.cpp:140-144 | the comparator is irreflexive, asymmetric and transitive, and leaves only equal points unordered |
| IndexSort.Range | tugas1/main.cpp:136-137 | the filled index vector holds m at position m for every m < n |
| IndexSort.Insert | tugas1/main.cpp:140-144 | inserting an index adds exactly that index, keeps every entry valid, and adds one to the length |
| IndexSort.InsertSorted | tugas1/main.cpp:140-144 | inserting into a sorted index sequence keeps it sorted |
| IndexSort.InsertionSort | tugas1/main.cpp:140-144 | the sort returns a permutation of its input of valid indices |
| IndexSort.InsertionSortSorted | tugas1/main.cpp:140-144 | the sort's result is non-decreasing under the comparator |
| IndexSort.InsertDistinct | tugas1/main.cpp:140-144 | inserting an index that is not yet present keeps the entries distinct |
| IndexSort.DistinctCons | tugas1/main.cpp:140-144 | prepending an absent index to distinct entries keeps them distinct |
| IndexSort.InsertionSortDistinct | tugas1/main.cpp:140-144 | sorting distinct indices gives distinct indices |
| IndexSort.SortIndices | tugas1/main.cpp:136-144 | idx is a permutation of 0 .. n-1 with distinct entries, holds every index below n, and is non-decreasing under the comparator |
| FastHull.NotLeft | tugas1/main.cpp:149-152 | no contract: its body is the pop condition `cross(top-1, top, id) <= 0` of both chains (also lines 167-170); `PopNonLeft`, `Popped` and `PoppedPrefix` state what the pop loop does with it |
| FastHull.Popped | tugas1/main.cpp:149-155 | reference definition of the pop loop: drop the top entry while at least lo entries remain and the top two entries do not turn strictly left with id; its contract only keeps the indices valid, and `PoppedPrefix` and `PopNonLeft` characterise it |
| FastHull.PoppedPrefix | tugas1/main.cpp:149-155 | the pop loop keeps a prefix of the stack of at least min(n, lo-1) entries; it stops with fewer than lo entries or at a strict left turn; with fewer than lo entries it pops nothing |
| FastHull.PopNonLeft | tugas1/main.cpp:149-155 | the loop's result is exactly `Popped`: a prefix of the stack; each popped entry was on top of a stack of at least lo entries that did not turn strictly left with id; it stops below lo or at a strict left turn; it evaluates `cross` once per pop plus once for the failing check |
| FastHull.PopAndPush | tugas1/main.cpp:148-160 | the new stack is exactly `Popped(h) + [id]`, so only entries that failed the left-turn test are popped; every triple from lo-2 on turns strictly left; entries below lo-1 stay; the count equals the `cross` evaluations, and is 0 when the stack held fewer than lo entries |
| FastHull.PushTurns | tugas1/main.cpp:149-160 | pushing id onto a prefix at which the pop loop stopped keeps every triple from lo-2 on turning strictly left |
| FastHull.PushKeepsFresh | tugas1/main.cpp:148-160 | pushing the next id onto a prefix that does not hold it keeps neighbouring entries distinct, and the stack still holds none of the ids yet to come |
| FastHull.ChainFrom | tugas1/main.cpp:148-161 | reference definition of one chain: each remaining id in turn is pushed after `Popped`; its contract only keeps the indices valid, and `ChainShape`, `ChainTop`, `ChainStart` and `ChainFresh` characterise it |
| FastHull.ChainShape | tugas1/main.cpp:148-161 | a chain over k ids leaves between min(|h|+k, lo) and |h|+k entries, never pops the first min(|h|, lo-1), keeps every triple from lo-2 on turning strictly left, and with at most lo entries in all pops nothing |
| FastHull.ChainTop | tugas1/main.cpp:148-161 | a chain over no ids leaves the stack unchanged; otherwise its last id ends on top |
| FastHull.ChainStart | tugas1/main.cpp:148-161 | a chain built on an empty stack starts with its first id, which is never popped |
| FastHull.ChainFresh | tugas1/main.cpp:148-161 | when no pushed id can land next to a copy of itself, neighbouring entries of the chain differ |
| FastHull.PushAll | tugas1/main.cpp:148-161 | the loop leaves exactly the reference chain `Chain(h0, ids)`; counter plus stack size lie between |h0| + k and |h0| + 2k for k ids; with at most lo entries in all nothing is counted; the counter equals the `cross` evaluations |
| FastHull.ExtendChain | tugas1/main.cpp:148-161 | the chain is exactly `Chain(h0, ids)`; it keeps the first min(|h0|, lo-1) entries and the strict-left-turn invariant from lo-2 on; the last id is on top; with at most lo entries in all nothing is popped or counted; with fresh ids no two neighbouring entries are equal |
| FastHull.BuildLowerChain | tugas1/main.cpp:146-161 | the lower chain is exactly `Chain([], idx, 2)`; it starts with idx[0], ends with idx[n-1], has at least 2 entries when n >= 2, and turns strictly left at every triple; counts plus entries lie between n and 2n; the counter equals the `cross` evaluations; with distinct indices neighbouring entries differ |
| FastHull.Reverse | tugas1/main.cpp:165-166 | the upper chain visits idx[n-2] down to idx[0] |
| FastHull.UpperIdsValid | tugas1/main.cpp:165-166 | idx[n-2] .. idx[0] are valid indices whenever idx is |
| FastHull.BuildUpperChain | tugas1/main.cpp:163-177 | the stack is exactly `Chain(lower, idx[n-2] .. idx[0], |lower| + 1)`; the lower chain stays an unchanged prefix; every triple from |lower|-1 on turns strictly left; idx[0] ends on top; the counter equals the `cross` evaluations; with distinct indices neighbouring entries differ |
| FastHull.UpperIdsFresh | tugas1/main.cpp:165-166 | idx[n-2] .. idx[0] are distinct and differ from the lower chain's top idx[n-1] when idx has distinct entries |
| FastHull.ChainStack | tugas1/main.cpp:146-177 | reference definition of the stack before the final pop: the lower chain from an empty stack with threshold 2, then the upper chain with threshold |lower| + 1; it is never empty |
| FastHull.HullCycle | tugas1/main.cpp:178 | reference definition of the closed vertex sequence: `ChainStack` without its top entry, one entry shorter |
| FastHull.CycleEdge | tugas1/main.cpp:181-182 | no contract: its body is the `(min, max)` edge between entries m and (m+1) % size; `EmitEdges`, `NoSelfLoops`, `WrapIndex` and `TwoVertexCycle` state what the emitted set holds |
| FastHull.EmitEdges | tugas1/main.cpp:180-184 | the edge set holds the canonical edge of every consecutive pair of the closed vertex sequence, the last wrapping to the first, and nothing else |
| FastHull.BuildChains | tugas1/main.cpp:146-177 | the stack is exactly `ChainStack(idx)` and t is the lower chain's length plus 1; it turns strictly left at every triple except the one at t-3 where the chains meet; it starts and ends with idx[0] and holds idx[n-1] at t-2, the top of the lower chain, with 3 <= t <= its length for n >= 2; counts plus entries lie in [2n-1, 4n-2]; the counter equals the `cross` evaluations; with distinct indices neighbouring entries differ |
| FastHull.CloseChain | tugas1/main.cpp:178-184 | the final pop drops exactly the top entry; every non-wrapping triple of what is left turns strictly left except the joint, and so does the closing triple unless it is the joint; the edges are exactly its consecutive-pair edges, below n and, for distinct indices, never self-loops; one point gives no edge; two points give their single edge |
| FastHull.MonotoneChain | tugas1/main.cpp:146-184 | the closed vertex sequence is exactly `HullCycle(idx)`; every non-wrapping triple turns strictly left except the one at t-3, and so does the triple closing on the first vertex unless it is that joint; for n >= 2 the vertex at t-2 is idx[n-1] and 3 <= t <= length + 1; its edges are exactly its consecutive-pair edges, with indices below n and, for distinct indices, no self-loop; one point gives no edge; two points give their single edge; the counter equals the `cross` evaluations |
| FastHull.ClosedHullTurns | tugas1/main.cpp:178 | dropping the top entry, a copy of the bottom one, keeps every stack turn except the joint's, including the one that closes the cycle |
| FastHull.ClosedHullDistinct | tugas1/main.cpp:178-181 | after the final pop, neighbouring vertices differ, wrap-around included, and the sequence never has exactly one vertex |
| FastHull.NoSelfLoops | tugas1/main.cpp:180-184 | a cycle without equal neighbours yields only edges with i < j |
| FastHull.WrapIndex | tugas1/main.cpp:181 | the successor of the last position wraps to position 0 |
| FastHull.TwoVertexCycle | tugas1/main.cpp:180-184 | a two-vertex cycle yields the same edge in both directions |
| FastHull.ComputeFastHull | tugas1/main.cpp:131-185 | idx is a sorted permutation of 0 .. n-1; the closed vertex sequence is exactly `HullCycle(idx)`; the edges are exactly the consecutive-pair edges of the closed vertex sequence, which starts at idx[0], holds idx[n-1] at t-2 for n >= 2, and turns strictly left at every non-wrapping triple except the joint; every edge has 0 <= i < j < n; one point gives no edge and no count; two points give exactly (0, 1) and no count; count plus vertices is at least 2n-2, the counter lies in [0, 4n-3] and equals the `cross` evaluations |
| ReferenceInput.RefEdgeOneSide | tugas1/main.cpp:78-87 | each of the five boundary pairs of the window's points has every other point on one closed side |
| ReferenceInput.ReferenceSlowHull | tugas1/main.cpp:78-92 | on the window's eight points the brute-force hull is exactly the boundary cycle 0, 2, 3, 6, 7 |

## Left out

- The Qt GUI: `DrawCanvas` and its `paintEvent` (tugas1/main.cpp:25-65), the window and
  layout construction, and `main`. This is rendering and event-loop code.
- IEEE double arithmetic in `QPointF` and `cross`. Coordinates are exact reals, so
  rounding near the 1e-9 threshold and near `<= 0` is not modelled.
- The internals of `std::sort`. `IndexSort.SortIndices` is one sort with the required
  result: a sorted permutation. `std::sort` may order points with equal coordinates
  differently. The chain methods are proved for any sequence of valid indices, so their
  contracts hold for every such order.
- Writing the results into the canvas objects. Each algorithm returns `(edges, count)`.
- The 32-bit `int` counters. Both counters stay below n³, far from overflow for the
  eight-point input, and are modelled as unbounded integers.
- FastHull.ComputeFastHull: requires at least one point. On an empty input the source
  calls `pop_back` on an empty vector, which is undefined behaviour.
- FastHull.ComputeFastHull: does not state that the two hulls agree, and does not give
  the monotone chain's result on the reference input. Only the brute force is
  characterised edge by edge, and only its reference result is proved.
- FastHull.MonotoneChain: does not state that the triple at the joint of the two chains
  turns left. That triple is never tested by the source; its turn follows from the
  sortedness of idx by geometric reasoning beyond the stack invariants.
- FastHull.MonotoneChain: does not state the wrap-around triple (hull[-1], hull[0],
  hull[1]). The source never tests it, and for two points its `cross` is 0.
- FastHull.BuildChains: proves the stack equal to the reference `ChainStack`, which
  applies the source's pop rule step by step, but not that it holds the hull's
  vertices. That the popped points are exactly the ones inside the hull is geometry
  about the sorted order, beyond the pop rule.
- FastHull.MonotoneChain: proves the closed vertex sequence equal to the reference
  `HullCycle`, but not that it is the convex hull of the points, for the same reason.
- FastHull.ComputeFastHull: like `MonotoneChain`, pins its vertex sequence to
  `HullCycle` of the sorted indices but does not prove that every point lies inside it.
- FastHull.BuildUpperChain: does not state that the stack entries are drawn from idx,
  only that they are valid indices.
- The other `main.cpp` copy in the repository is the same program with different
  comments, and is not modelled separately.

=== FILE: fast_hull.dfy ===
/**
 The monotone-chain hull (`computeFastHull`): indices sorted by (x, y), a
 lower chain built left to right on a stack, an upper chain built right to
 left on top of it, and one canonical edge per consecutive pair of the
 closed vertex sequence.

 A stack entry is popped while it and the entry below it do not make a
 strict left turn with the candidate (`cross <= 0`, no epsilon). Every
 `cross` evaluation in the pop condition adds one to the counter.
 */
module FastHull {
  import opened Geometry
  import opened IndexSort

  /** The smaller of a and b. */
  function Min(a: int, b: int): int
  {
    if a <= b then a else b
  }

  /** Stack entries m, m+1, m+2 make a strict left (counter-clockwise) turn. */
  predicate LeftTurnAt(p: seq<Point>, h: seq<int>, m: int)
    requires ValidIndices(p, h) && 0 <= m && m + 2 < |h|
  {
    Cross(p[h[m]], p[h[m + 1]], p[h[m + 2]]) > 0.0
  }

  /** Every triple of the stack that starts at position lo or later turns strictly left. */
  ghost predicate LeftTurnsFrom(p: seq<Point>, h: seq<int>, lo: int)
    requires ValidIndices(p, h)
  {
    forall m :: 0 <= m && lo <= m && m + 2 < |h| ==> LeftTurnAt(p, h, m)
  }

  /** The top two entries of the stack and the candidate id do not turn strictly left. */
  predicate NotLeft(p: seq<Point>, h: seq<int>, id: int)
    requires ValidIndices(p, h) && |h| >= 2 && 0 <= id < |p|
  {
    Cross(p[h[|h| - 2]], p[h[|h| - 1]], p[id]) <= 0.0
  }

  /**
   Reference definition of the pop loop in front of a push: drop the top
   entry while the stack holds at least lo entries and its top two entries
   do not turn strictly left with id.
   */
  ghost function Popped(p: seq<Point>, h: seq<int>, id: int, lo: int): (r: seq<int>)
    requires ValidIndices(p, h) && 0 <= id < |p| && lo >= 2
    ensures ValidIndices(p, r)
    decreases |h|
  {
    if |h| < lo || !NotLeft(p, h, id) then h else Popped(p, h[..|h| - 1], id, lo)
  }

  /**
   Reference definition of a chain: ids[j], ids[j+1], ... in order, each
   pushed onto h after the pop loop for it.
   */
  ghost function ChainFrom(p: seq<Point>, h: seq<int>, ids: seq<int>, j: int, lo: int)
    : (r: seq<int>)
    requires ValidIndices(p, h) && ValidIndices(p, ids) && lo >= 2 && 0 <= j <= |ids|
    ensures ValidIndices(p, r)
    decreases |ids| - j
  {
    if j == |ids| then h else ChainFrom(p, Popped(p, h, ids[j], lo) + [ids[j]], ids, j + 1, lo)
  }

  /** The chain that pushes every id of ids onto h. */
  ghost function Chain(p: seq<Point>, h: seq<int>, ids: seq<int>, lo: int): seq<int>
    requires ValidIndices(p, h) && ValidIndices(p, ids) && lo >= 2
  {
    ChainFrom(p, h, ids, 0, lo)
  }

  /**
   The pop loop in front of each push: pops the top while the stack holds at
   least lo entries and its top two entries do not turn strictly left with id.
   The result is the longest prefix of h at which the loop condition fails.
   The ghost evals counts the `cross` evaluations the condition made: it goes
   up by one right before each `Cross` call of the loop, while pops counts
   the source's `count++` inside the loop.
   */
  method PopNonLeft(p: seq<Point>, h: seq<int>, id: int, lo: int)
    returns (h': seq<int>, pops: int, ghost evals: int)
    requires ValidIndices(p, h) && 0 <= id < |p| && lo >= 2
    ensures ValidIndices(p, h')
    ensures |h'| <= |h| && h' == h[..|h'|]
    ensures pops == |h| - |h'|
    ensures |h| < lo ==> h' == h
    ensures |h| >= lo ==> |h'| >= lo - 1
    ensures |h'| < lo || !NotLeft(p, h', id)
    ensures forall k :: |h'| < k <= |h| ==> k >= lo && NotLeft(p, h[..k], id)
    ensures h' == Popped(p, h, id, lo)
    ensures evals == pops + (if |h'| >= lo then 1 else 0)
  {
    h', pops := h, 0;
    evals := 0;
    while true
      invariant ValidIndices(p, h')
      invariant |h'| <= |h| && h' == h[..|h'|]
      invariant pops == |h| - |h'|
      invariant |h| < lo ==> h' == h
      invariant |h| >= lo ==> |h'| >= lo - 1
      invariant forall k :: |h'| < k <= |h| ==> k >= lo && NotLeft(p, h[..k], id)
      invariant evals == pops
      invariant Popped(p, h', id, lo) == Popped(p, h, id, lo)
      decreases |h'|
    {
      if |h'| < lo {
        break;
      }
      evals := evals + 1;
      if Cross(p[h'[|h'| - 2]], p[h'[|h'| - 1]], p[id]) > 0.0 {
        break;
      }
      assert h[..|h'|] == h';
      pops := pops + 1;
      h' := h'[..|h'| - 1];
    }
  }

  /**
   One step of a chain: the pop loop for id, the final check counted when the
   stack still holds at least lo entries, then the push of id.
   */
  method PopAndPush(p: seq<Point>, h: seq<int>, id: int, lo: int)
    returns (h2: seq<int>, count: int, ghost evals: int)
    requires ValidIndices(p, h) && 0 <= id < |p| && lo >= 2
    requires LeftTurnsFrom(p, h, lo - 2)
    ensures ValidIndices(p, h2)
    ensures 1 <= |h2| <= |h| + 1
    ensures forall m :: 0 <= m < |h2| - 1 ==> h2[m] == h[m]
    ensures h2[|h2| - 1] == id
    ensures |h2| - 1 >= Min(|h|, lo - 1)
    ensures forall k :: |h2| - 1 < k <= |h| ==> k >= lo && NotLeft(p, h[..k], id)
    ensures h2 == Popped(p, h, id, lo) + [id]
    ensures LeftTurnsFrom(p, h2, lo - 2)
    ensures |h| < lo ==> |h2| == |h| + 1 && count == 0
    ensures |h| + 1 <= count + |h2| <= |h| + 2
    ensures count == evals && count >= 0
  {
    var h', pops;
    ghost var e;
    h', pops, e := PopNonLeft(p, h, id, lo);
    evals := e;
    count := pops;
    if |h'| >= lo {
      count := count + 1;
    }
    h2 := h' + [id];
    assert h2[..|h'|] == h';
    forall m | 0 <= m && lo - 2 <= m && m + 2 < |h2| ensures LeftTurnAt(p, h2, m) {
      if m + 2 < |h'| {
        assert LeftTurnAt(p, h, m);
      } else {
        assert m + 2 == |h'|;
      }
    }
  }

  /** Neighbouring stack entries differ, so no consecutive pair is a self-loop. */
  predicate AdjacentDistinct(h: seq<int>)
  {
    forall m :: 0 <= m && m + 1 < |h| ==> h[m] != h[m + 1]
  }

  /** No entry of h at position b or above is one of the ids still to push, ids[j..]. */
  ghost predicate AvoidsRest(h: seq<int>, ids: seq<int>, b: int, j: int)
  {
    forall r, a :: 0 <= r < |h| && b <= r && 0 <= j <= a < |ids| ==> h[r] != ids[a]
  }

  /**
   What keeps every pushed entry different from the one below it: h0 has no
   equal neighbours, the ids are distinct, and none of them occurs in h0 at
   or above the highest position that can end up under a pushed id.
   */
  ghost predicate PushesFresh(h0: seq<int>, ids: seq<int>, lo: int)
  {
    AdjacentDistinct(h0) && DistinctEntries(ids) && AvoidsRest(h0, ids, Min(|h0|, lo - 1) - 1, 0)
  }

  /** Pushing ids[j] onto a prefix that avoids it keeps neighbours distinct. */
  lemma PushKeepsFresh(h: seq<int>, next: seq<int>, ids: seq<int>, j: int, b: int)
    requires 0 <= j < |ids| && DistinctEntries(ids)
    requires 1 <= |next| <= |h| + 1 && next[|next| - 1] == ids[j]
    requires forall m :: 0 <= m < |next| - 1 ==> next[m] == h[m]
    requires b <= |next| - 2 || |next| == 1
    requires AdjacentDistinct(h) && AvoidsRest(h, ids, b, j)
    ensures AdjacentDistinct(next) && AvoidsRest(next, ids, b, j + 1)
  {
    forall m | 0 <= m && m + 1 < |next| ensures next[m] != next[m + 1] {
      if m + 1 < |next| - 1 {
        assert h[m] != h[m + 1];
      } else {
        assert h[m] != ids[j];
      }
    }
  }

  /** The pop loop keeps a prefix of the stack, and never one shorter than min(|h|, lo - 1). */
  lemma {:induction false} PoppedPrefix(p: seq<Point>, h: seq<int>, id: int, lo: int)
    requires ValidIndices(p, h) && 0 <= id < |p| && lo >= 2
    ensures var r := Popped(p, h, id, lo);
      Min(|h|, lo - 1) <= |r| <= |h| && forall m :: 0 <= m < |r| ==> r[m] == h[m]
    ensures var r := Popped(p, h, id, lo); |r| < lo || !NotLeft(p, r, id)
    ensures |h| < lo ==> Popped(p, h, id, lo) == h
    decreases |h|
  {
    if !(|h| < lo || !NotLeft(p, h, id)) {
      PoppedPrefix(p, h[..|h| - 1], id, lo);
    }
  }

  /**
   A chain whose pushes all stay clear of the entries they can land on keeps
   neighbouring entries distinct.
   */
  lemma {:induction false} ChainFresh(
    p: seq<Point>, h: seq<int>, ids: seq<int>, j: int, lo: int, b: int)
    requires ValidIndices(p, h) && ValidIndices(p, ids) && lo >= 2 && 0 <= j <= |ids|
    requires DistinctEntries(ids) && b <= Min(|h|, lo - 1) - 1
    requires AdjacentDistinct(h) && AvoidsRest(h, ids, b, j)
    ensures AdjacentDistinct(ChainFrom(p, h, ids, j, lo))
    decreases |ids| - j
  {
    if j < |ids| {
      var next := Popped(p, h, ids[j], lo) + [ids[j]];
      PoppedPrefix(p, h, ids[j], lo);
      PushKeepsFresh(h, next, ids, j, b);
      ChainFresh(p, next, ids, j + 1, lo, b);
    }
  }

  /**
   Pushing id onto a prefix r of h at which the pop loop stops keeps every
   triple from lo - 2 on turning strictly left.
   */
  lemma PushTurns(p: seq<Point>, h: seq<int>, r: seq<int>, id: int, lo: int)
    requires ValidIndices(p, h) && 0 <= id < |p| && lo >= 2
    requires |r| <= |h| && forall m :: 0 <= m < |r| ==> r[m] == h[m]
    requires |r| < lo || !NotLeft(p, r, id)
    requires LeftTurnsFrom(p, h, lo - 2)
    ensures LeftTurnsFrom(p, r + [id], lo - 2)
  {
    var next := r + [id];
    forall m | 0 <= m && lo - 2 <= m && m + 2 < |next| ensures LeftTurnAt(p, next, m) {
      if m + 2 < |r| {
        assert LeftTurnAt(p, h, m);
      } else {
        assert m + 2 == |r|;
      }
    }
  }

  /**
   The shape of a chain: its length, the entries below min(|h|, lo - 1) that
   are never popped, its left turns, and the case where nothing is popped.
   */
  lemma {:induction false} ChainShape(p: seq<Point>, h: seq<int>, ids: seq<int>, j: int, lo: int)
    requires ValidIndices(p, h) && ValidIndices(p, ids) && lo >= 2 && 0 <= j <= |ids|
    requires LeftTurnsFrom(p, h, lo - 2)
    ensures var r := ChainFrom(p, h, ids, j, lo);
      Min(|h| + |ids| - j, lo) <= |r| <= |h| + |ids| - j
    ensures var r := ChainFrom(p, h, ids, j, lo);
      |r| >= Min(|h|, lo - 1) && forall m :: 0 <= m < Min(|h|, lo - 1) ==> r[m] == h[m]
    ensures LeftTurnsFrom(p, ChainFrom(p, h, ids, j, lo), lo - 2)
    ensures |h| + |ids| - j <= lo ==> ChainFrom(p, h, ids, j, lo) == h + ids[j..]
    decreases |ids| - j
  {
    if j == |ids| {
      assert h + ids[j..] == h;
    } else {
      var next := Popped(p, h, ids[j], lo) + [ids[j]];
      PoppedPrefix(p, h, ids[j], lo);
      PushTurns(p, h, Popped(p, h, ids[j], lo), ids[j], lo);
      ChainShape(p, next, ids, j + 1, lo);
      if |h| + |ids| - j <= lo {
        assert next + ids[j + 1..] == h + ids[j..];
      }
    }
  }

  /**
   The loop of ExtendChain: the stack it leaves is the reference chain, and
   each push adds one count per pop plus one per final check.
   */
  method PushAll(p: seq<Point>, h0: seq<int>, ids: seq<int>, lo: int)
    returns (h: seq<int>, count: int, ghost evals: int)
    requires ValidIndices(p, h0) && ValidIndices(p, ids) && lo >= 2
    requires LeftTurnsFrom(p, h0, lo - 2)
    ensures h == Chain(p, h0, ids, lo)
    ensures |h0| + |ids| <= lo ==> count == 0
    ensures |h0| + |ids| <= count + |h| <= |h0| + 2 * |ids|
    ensures count == evals && count >= 0
  {
    h, count := h0, 0;
    evals := 0;
    var j := 0;
    while j < |ids|
      invariant 0 <= j <= |ids|
      invariant ValidIndices(p, h) && |h| <= |h0| + j
      invariant LeftTurnsFrom(p, h, lo - 2)
      invariant |h0| + |ids| <= lo ==> count == 0
      invariant |h0| + j <= count + |h| <= |h0| + 2 * j
      invariant count == evals && count >= 0
      invariant ChainFrom(p, h, ids, j, lo) == Chain(p, h0, ids, lo)
    {
      var id := ids[j];
      var next, c;
      ghost var e;
      next, c, e := PopAndPush(p, h, id, lo);
      evals := evals + e;
      count := count + c;
      h := next;
      j := j + 1;
    }
  }

  /** A chain pushed onto an empty stack starts with its first id, which is never popped. */
  lemma ChainStart(p: seq<Point>, ids: seq<int>, lo: int)
    requires ValidIndices(p, ids) && lo >= 2 && |ids| >= 1
    ensures |Chain(p, [], ids, lo)| >= 1 && Chain(p, [], ids, lo)[0] == ids[0]
  {
    PoppedPrefix(p, [], ids[0], lo);
    assert Popped(p, [], ids[0], lo) + [ids[0]] == [ids[0]];
    ChainShape(p, [ids[0]], ids, 1, lo);
  }

  /** A chain over no ids leaves the stack alone; otherwise its top is the last id. */
  lemma {:induction false} ChainTop(p: seq<Point>, h: seq<int>, ids: seq<int>, j: int, lo: int)
    requires ValidIndices(p, h) && ValidIndices(p, ids) && lo >= 2 && 0 <= j <= |ids|
    ensures j == |ids| ==> ChainFrom(p, h, ids, j, lo) == h
    ensures j < |ids| ==>
      var r := ChainFrom(p, h, ids, j, lo); |r| >= 1 && r[|r| - 1] == ids[|ids| - 1]
    decreases |ids| - j
  {
    if j < |ids| {
      ChainTop(p, Popped(p, h, ids[j], lo) + [ids[j]], ids, j + 1, lo);
    }
  }

  /**
   Pushes ids onto h0 in order, each after its pop loop, counting one per pop
   and one per final check made while the stack holds at least lo entries.
   Nothing below position min(|h0|, lo - 1) is ever popped.
   */
  method ExtendChain(p: seq<Point>, h0: seq<int>, ids: seq<int>, lo: int)
    returns (h: seq<int>, count: int, ghost evals: int)
    requires ValidIndices(p, h0) && ValidIndices(p, ids) && lo >= 2
    requires LeftTurnsFrom(p, h0, lo - 2)
    ensures ValidIndices(p, h)
    ensures Min(|h0| + |ids|, lo) <= |h| <= |h0| + |ids|
    ensures |h| >= Min(|h0|, lo - 1) && forall m :: 0 <= m < Min(|h0|, lo - 1) ==> h[m] == h0[m]
    ensures |h0| + |ids| >= 1 ==> h[0] == (h0 + ids)[0]
    ensures LeftTurnsFrom(p, h, lo - 2)
    ensures |ids| > 0 ==> h[|h| - 1] == ids[|ids| - 1]
    ensures |ids| == 0 ==> h == h0
    ensures |h0| + |ids| <= lo ==> h == h0 + ids && count == 0
    ensures |h0| + |ids| <= count + |h| <= |h0| + 2 * |ids|
    ensures count == evals && count >= 0
    ensures PushesFresh(h0, ids, lo) ==> AdjacentDistinct(h)
    ensures h == Chain(p, h0, ids, lo)
  {
    h, count, evals := PushAll(p, h0, ids, lo);
    ChainShape(p, h0, ids, 0, lo);
    ChainTop(p, h0, ids, 0, lo);
    if |h0| == 0 && |ids| >= 1 {
      ChainStart(p, ids, lo);
    }
    if PushesFresh(h0, ids, lo) {
      ChainFresh(p, h0, ids, 0, lo, Min(|h0|, lo - 1) - 1);
    }
    assert ids[0..] == ids;
  }

  /**
   The lower chain: every sorted index pushed in order onto an empty stack,
   popping while the stack holds at least 2 entries.
   */
  method BuildLowerChain(p: seq<Point>, idx: seq<int>)
    returns (lower: seq<int>, count: int, ghost evals: int)
    requires |idx| >= 1 && ValidIndices(p, idx)
    ensures ValidIndices(p, lower)
    ensures 1 <= |lower| <= |idx|
    ensures |idx| >= 2 ==> |lower| >= 2
    ensures lower[0] == idx[0] && lower[|lower| - 1] == idx[|idx| - 1]
    ensures LeftTurnsFrom(p, lower, 0)
    ensures |idx| <= 2 ==> lower == idx && count == 0
    ensures |idx| <= count + |lower| <= 2 * |idx|
    ensures count == evals && count >= 0
    ensures DistinctEntries(idx) ==> AdjacentDistinct(lower)
    ensures lower == Chain(p, [], idx, 2)
  {
    lower, count, evals := ExtendChain(p, [], idx, 2);
    assert [] + idx == idx;
  }

  /** The entries of s in reverse order: the upper chain visits idx[n-2] down to idx[0]. */
  function Reverse(s: seq<int>): (r: seq<int>)
    ensures |r| == |s|
    ensures forall m :: 0 <= m < |s| ==> r[m] == s[|s| - 1 - m]
  {
    if |s| == 0 then [] else [s[|s| - 1]] + Reverse(s[..|s| - 1])
  }

  /** The upper chain's ids, idx[n-2] down to idx[0], are valid indices. */
  ghost predicate UpperValid(p: seq<Point>, idx: seq<int>)
    requires |idx| >= 1
  {
    ValidIndices(p, Reverse(idx[..|idx| - 1]))
  }

  /** The upper chain's ids are valid whenever idx is. */
  lemma UpperIdsValid(p: seq<Point>, idx: seq<int>)
    requires |idx| >= 1 && ValidIndices(p, idx)
    ensures UpperValid(p, idx)
  {
    var ids := Reverse(idx[..|idx| - 1]);
    forall m | 0 <= m < |ids| ensures 0 <= ids[m] < |p| {
      assert ids[m] == idx[|idx| - 2 - m];
    }
  }

  /**
   Reference definition of the whole stack before the final pop: the lower
   chain over idx from an empty stack, then the upper chain over idx[n-2]
   down to idx[0] with threshold |lower| + 1.
   */
  ghost function ChainStack(p: seq<Point>, idx: seq<int>): (r: seq<int>)
    requires |idx| >= 1 && ValidIndices(p, idx)
    ensures ValidIndices(p, r) && |r| >= 1
  {
    var lower := Chain(p, [], idx, 2);
    UpperIdsValid(p, idx);
    ChainTop(p, [], idx, 0, 2);
    ChainTop(p, lower, Reverse(idx[..|idx| - 1]), 0, |lower| + 1);
    Chain(p, lower, Reverse(idx[..|idx| - 1]), |lower| + 1)
  }

  /** Reference definition of the closed vertex sequence: the stack without its top entry. */
  ghost function HullCycle(p: seq<Point>, idx: seq<int>): (r: seq<int>)
    requires |idx| >= 1 && ValidIndices(p, idx)
    ensures ValidIndices(p, r) && |r| == |ChainStack(p, idx)| - 1
  {
    var s := ChainStack(p, idx);
    s[..|s| - 1]
  }

  /** Dropping the top entry of the reference stack gives the reference vertex sequence. */
  lemma StackDropsTop(p: seq<Point>, idx: seq<int>, h: seq<int>)
    requires |idx| >= 1 && ValidIndices(p, idx) && h == ChainStack(p, idx)
    ensures |h| >= 1 && h[..|h| - 1] == HullCycle(p, idx)
  {
  }

  /**
   The upper chain: idx[n-2] down to idx[0] pushed on top of the lower chain,
   popping only while the stack holds at least t = |lower| + 1 entries, so
   the lower chain stays an unchanged prefix of the stack.
   */
  method BuildUpperChain(p: seq<Point>, idx: seq<int>, lower: seq<int>)
    returns (h: seq<int>, count: int, ghost evals: int)
    requires |idx| >= 1 && ValidIndices(p, idx)
    requires ValidIndices(p, lower) && |lower| >= 1 && lower[|lower| - 1] == idx[|idx| - 1]
    ensures ValidIndices(p, h)
    ensures |h| >= |lower| && h[..|lower|] == lower
    ensures |idx| >= 2 ==> |h| >= |lower| + 1
    ensures LeftTurnsFrom(p, h, |lower| - 1)
    ensures h[|h| - 1] == idx[0]
    ensures |idx| == 1 ==> h == lower && count == 0
    ensures |idx| == 2 ==> h == lower + [idx[0]] && count == 0
    ensures |lower| + |idx| - 1 <= count + |h| <= |lower| + 2 * (|idx| - 1)
    ensures count == evals && count >= 0
    ensures DistinctEntries(idx) && AdjacentDistinct(lower) ==> AdjacentDistinct(h)
    ensures UpperValid(p, idx) && h == Chain(p, lower, Reverse(idx[..|idx| - 1]), |lower| + 1)
  {
    var t := |lower| + 1;
    var ids := Reverse(idx[..|idx| - 1]);
    UpperIdsValid(p, idx);
    if DistinctEntries(idx) && AdjacentDistinct(lower) {
      UpperIdsFresh(idx, lower, ids);
    }
    h, count, evals := ExtendChain(p, lower, ids, t);
    assert h[..|lower|] == lower by {
      assert Min(|lower|, t - 1) == |lower|;
    }
    if |idx| == 2 {
      assert ids == [idx[0]];
    }
  }

  /** The upper chain's ids are distinct and differ from the lower chain's top, idx[n-1]. */
  lemma UpperIdsFresh(idx: seq<int>, lower: seq<int>, ids: seq<int>)
    requires |idx| >= 1 && DistinctEntries(idx)
    requires |lower| >= 1 && lower[|lower| - 1] == idx[|idx| - 1] && AdjacentDistinct(lower)
    requires ids == Reverse(idx[..|idx| - 1])
    ensures PushesFresh(lower, ids, |lower| + 1)
  {
    forall a, b | 0 <= a < b < |ids| ensures ids[a] != ids[b] {
      assert ids[a] == idx[|idx| - 2 - a] && ids[b] == idx[|idx| - 2 - b];
    }
    forall r, a | 0 <= r < |lower| && |lower| - 1 <= r && 0 <= a < |ids|
      ensures lower[r] != ids[a]
    {
      assert ids[a] == idx[|idx| - 2 - a];
    }
  }

  /** The edge between cycle entries m and m+1, the last wrapping to the first. */
  function CycleEdge(c: seq<int>, m: int): Edge
    requires 0 <= m < |c|
  {
    MkEdge(c[m], c[(m + 1) % |c|])
  }

  /** The edges between consecutive entries m, m+1 of c for every m < i. */
  ghost function CycleEdgesBefore(c: seq<int>, i: int): set<Edge>
    requires 0 <= i <= |c|
  {
    set m | 0 <= m < i :: CycleEdge(c, m)
  }

  /**
   One canonical edge per consecutive pair of the closed vertex sequence c,
   collected into a set.
   */
  method EmitEdges(c: seq<int>) returns (edges: set<Edge>)
    ensures forall m :: 0 <= m < |c| ==> CycleEdge(c, m) in edges
    ensures forall e :: e in edges ==> exists m :: 0 <= m < |c| && e == CycleEdge(c, m)
    ensures forall e :: e in edges ==> e.i <= e.j && e.i in c && e.j in c
  {
    edges := {};
    var i := 0;
    while i < |c|
      invariant 0 <= i <= |c|
      invariant edges == CycleEdgesBefore(c, i)
    {
      var a, b := c[i], c[(i + 1) % |c|];
      edges := edges + {MkEdge(a, b)};
      assert CycleEdgesBefore(c, i + 1) == CycleEdgesBefore(c, i) + {CycleEdge(c, i)};
      i := i + 1;
    }
    forall e | e in edges ensures e.i <= e.j && e.i in c && e.j in c {
      var m :| 0 <= m < |c| && e == CycleEdge(c, m);
      assert {e.i, e.j} == {c[m], c[(m + 1) % |c|]};
    }
  }

  /**
   Both chains on one stack. t is the source's threshold |lower| + 1: every
   triple of the stack turns strictly left except possibly the one at t - 3,
   where the upper chain meets the lower one.
   */
  method BuildChains(p: seq<Point>, idx: seq<int>)
    returns (h: seq<int>, t: int, count: int, ghost evals: int)
    requires |idx| >= 1 && ValidIndices(p, idx)
    ensures ValidIndices(p, h)
    ensures 2 <= t <= |h| + 1
    ensures forall m :: 0 <= m && m + 2 < t - 1 ==> LeftTurnAt(p, h, m)
    ensures LeftTurnsFrom(p, h, t - 2)
    ensures h[t - 2] == idx[|idx| - 1] && (|idx| >= 2 ==> 3 <= t <= |h|)
    ensures h[|h| - 1] == idx[0]
    ensures |idx| >= 2 ==> |h| >= 3 && h[0] == idx[0]
    ensures |idx| == 1 ==> h == idx && count == 0
    ensures |idx| == 2 ==> h == idx + [idx[0]] && count == 0
    ensures 2 * |idx| - 1 <= count + |h| <= 4 * |idx| - 2
    ensures count == evals && count >= 0
    ensures DistinctEntries(idx) ==> AdjacentDistinct(h)
    ensures h == ChainStack(p, idx) && t == |Chain(p, [], idx, 2)| + 1
  {
    var lower, c1;
    ghost var e1, e2;
    lower, c1, e1 := BuildLowerChain(p, idx);
    t := |lower| + 1;
    var c2;
    h, c2, e2 := BuildUpperChain(p, idx, lower);
    count := c1 + c2;
    evals := e1 + e2;
    forall m | 0 <= m && m + 2 < t - 1 ensures LeftTurnAt(p, h, m) {
      assert LeftTurnAt(p, lower, m);
      assert h[..|lower|] == lower;
      assert h[m] == lower[m] && h[m + 1] == lower[m + 1] && h[m + 2] == lower[m + 2];
    }
    if |idx| >= 2 {
      assert h[0] == h[..|lower|][0];
    }
  }

  /**
   The monotone chain over an index order idx. Any order of valid indices
   will do; `computeFastHull` passes the sorted one.

   Returns the closed vertex sequence, which is the stack without its last
   entry idx[0], together with the threshold t, the edges, the counter and
   the number of `cross` evaluations.

   Every triple of the closed sequence that does not wrap around turns
   strictly left, except the one at t - 3 where the chains meet; so does the
   triple that closes on the first vertex, unless it is that joint. With
   distinct indices no edge is a self-loop.
   */
  method MonotoneChain(p: seq<Point>, idx: seq<int>)
    returns (hull: seq<int>, t: int, edges: set<Edge>, count: int, ghost evals: int)
    requires |idx| >= 1 && ValidIndices(p, idx)
    ensures ValidIndices(p, hull)
    ensures 2 <= t <= |hull| + 2
    ensures forall m :: 0 <= m && m + 2 < |hull| && m + 3 != t ==> LeftTurnAt(p, hull, m)
    ensures |hull| >= 2 && |hull| + 1 != t ==> ClosingTurnLeft(p, hull)
    ensures |idx| >= 2 ==> |hull| >= 2 && hull[0] == idx[0]
    ensures |idx| >= 2 ==> 3 <= t <= |hull| + 1 && hull[t - 2] == idx[|idx| - 1]
    ensures forall m :: 0 <= m < |hull| ==> CycleEdge(hull, m) in edges
    ensures forall e :: e in edges ==> exists m :: 0 <= m < |hull| && e == CycleEdge(hull, m)
    ensures forall e :: e in edges ==> 0 <= e.i <= e.j < |p|
    ensures DistinctEntries(idx) ==> forall e :: e in edges ==> e.i < e.j
    ensures |idx| == 1 ==> hull == [] && edges == {} && count == 0
    ensures |idx| == 2 ==> hull == idx && edges == {MkEdge(idx[0], idx[1])} && count == 0
    ensures 2 * |idx| - 2 <= count + |hull| <= 4 * |idx| - 3
    ensures count == evals && count >= 0
    ensures hull == HullCycle(p, idx) && t == |Chain(p, [], idx, 2)| + 1
  {
    var h;
    h, t, count, evals := BuildChains(p, idx);
    hull, edges := CloseChain(p, idx, h, t);
    StackDropsTop(p, idx, h);
  }

  /**
   The end of `computeFastHull`: the final pop of the stack h that the two
   chains built, then one canonical edge per consecutive pair of what is
   left, the last pair wrapping around to the first vertex.
   */
  method CloseChain(p: seq<Point>, idx: seq<int>, h: seq<int>, t: int)
    returns (hull: seq<int>, edges: set<Edge>)
    requires |idx| >= 1 && ValidIndices(p, idx) && ValidIndices(p, h)
    requires 2 <= t <= |h| + 1
    requires forall m :: 0 <= m && m + 2 < t - 1 ==> LeftTurnAt(p, h, m)
    requires LeftTurnsFrom(p, h, t - 2)
    requires h[t - 2] == idx[|idx| - 1] && (|idx| >= 2 ==> 3 <= t <= |h|)
    requires h[|h| - 1] == idx[0]
    requires |idx| >= 2 ==> |h| >= 3 && h[0] == idx[0]
    requires |idx| == 1 ==> h == idx
    requires |idx| == 2 ==> h == idx + [idx[0]]
    requires DistinctEntries(idx) ==> AdjacentDistinct(h)
    ensures hull == h[..|h| - 1]
    ensures ValidIndices(p, hull)
    ensures forall m :: 0 <= m && m + 2 < |hull| && m + 3 != t ==> LeftTurnAt(p, hull, m)
    ensures |hull| >= 2 && |hull| + 1 != t ==> ClosingTurnLeft(p, hull)
    ensures |idx| >= 2 ==> |hull| >= 2 && hull[0] == idx[0]
    ensures |idx| >= 2 ==> hull[t - 2] == idx[|idx| - 1]
    ensures forall m :: 0 <= m < |hull| ==> CycleEdge(hull, m) in edges
    ensures forall e :: e in edges ==> exists m :: 0 <= m < |hull| && e == CycleEdge(hull, m)
    ensures forall e :: e in edges ==> 0 <= e.i <= e.j < |p|
    ensures DistinctEntries(idx) ==> forall e :: e in edges ==> e.i < e.j
    ensures |idx| == 1 ==> hull == [] && edges == {}
    ensures |idx| == 2 ==> hull == idx && edges == {MkEdge(idx[0], idx[1])}
  {
    hull := h[..|h| - 1];
    ClosedHullTurns(p, h, t, hull);
    edges := EmitEdges(hull);
    EdgesWithinRange(p, hull, edges);
    if DistinctEntries(idx) {
      ClosedHullDistinct(h, hull);
      NoSelfLoops(hull, edges);
    }
    if |idx| == 2 {
      assert hull == idx by {
        assert (idx + [idx[0]])[..|idx|] == idx;
      }
      TwoVertexCycle(hull, edges);
    }
  }

  /** The triple ending on the first vertex, which closes the cycle, turns strictly left. */
  predicate ClosingTurnLeft(p: seq<Point>, c: seq<int>)
    requires ValidIndices(p, c) && |c| >= 2
  {
    Cross(p[c[|c| - 2]], p[c[|c| - 1]], p[c[0]]) > 0.0
  }

  /** Dropping the top entry, a copy of the bottom one, keeps every turn but the joint's. */
  lemma ClosedHullTurns(p: seq<Point>, h: seq<int>, t: int, hull: seq<int>)
    requires ValidIndices(p, h) && |h| >= 1 && hull == h[..|h| - 1]
    requires 2 <= t <= |h| + 1 && h[|h| - 1] == h[0]
    requires forall m :: 0 <= m && m + 2 < t - 1 ==> LeftTurnAt(p, h, m)
    requires LeftTurnsFrom(p, h, t - 2)
    ensures ValidIndices(p, hull)
    ensures forall m :: 0 <= m && m + 2 < |hull| && m + 3 != t ==> LeftTurnAt(p, hull, m)
    ensures |hull| >= 2 && |hull| + 1 != t ==> ClosingTurnLeft(p, hull)
  {
    forall m | 0 <= m && m + 2 < |hull| && m + 3 != t ensures LeftTurnAt(p, hull, m) {
      assert LeftTurnAt(p, h, m);
    }
    if |hull| >= 2 && |hull| + 1 != t {
      assert LeftTurnAt(p, h, |h| - 3);
    }
  }

  /** With no equal neighbours on the stack, the closed sequence has none, wrap-around included. */
  lemma ClosedHullDistinct(h: seq<int>, hull: seq<int>)
    requires |h| >= 1 && hull == h[..|h| - 1] && h[|h| - 1] == h[0]
    requires AdjacentDistinct(h)
    ensures AdjacentDistinct(hull)
    ensures |hull| != 1
    ensures |hull| >= 2 ==> hull[|hull| - 1] != hull[0]
  {
    if |hull| >= 1 {
      assert h[|h| - 2] != h[|h| - 1];
    }
  }

  /** A cycle without equal neighbours yields no self-loop edge. */
  lemma NoSelfLoops(c: seq<int>, edges: set<Edge>)
    requires AdjacentDistinct(c) && |c| != 1
    requires |c| >= 2 ==> c[|c| - 1] != c[0]
    requires forall e :: e in edges ==> exists m :: 0 <= m < |c| && e == CycleEdge(c, m)
    ensures forall e :: e in edges ==> e.i < e.j
  {
    forall e | e in edges ensures e.i < e.j {
      var m :| 0 <= m < |c| && e == CycleEdge(c, m);
      WrapIndex(m, |c|);
      assert c[m] != c[(m + 1) % |c|];
    }
  }

  /** The successor of position m in a cycle of length n. */
  lemma WrapIndex(m: int, n: int)
    requires 0 <= m < n
    ensures (m + 1) % n == (if m + 1 < n then m + 1 else 0)
  {
  }

  /** Edges whose endpoints are entries of a valid index sequence stay within 0 .. n-1. */
  lemma EdgesWithinRange(p: seq<Point>, c: seq<int>, edges: set<Edge>)
    requires ValidIndices(p, c)
    requires forall e :: e in edges ==> e.i <= e.j && e.i in c && e.j in c
    ensures forall e :: e in edges ==> 0 <= e.i <= e.j < |p|
  {
  }

  /** A closed sequence of two vertices has one edge, walked once in each direction. */
  lemma TwoVertexCycle(c: seq<int>, edges: set<Edge>)
    requires |c| == 2
    requires forall m :: 0 <= m < |c| ==> CycleEdge(c, m) in edges
    requires forall e :: e in edges ==> exists m :: 0 <= m < |c| && e == CycleEdge(c, m)
    ensures CycleEdge(c, 0) == MkEdge(c[0], c[1])
    ensures CycleEdge(c, 1) == MkEdge(c[0], c[1])
    ensures edges == {MkEdge(c[0], c[1])}
  {
    MkEdgeSymmetric(c[0], c[1]);
  }

  /**
   The fast hull: indices sorted by (x, y), then the monotone chain. Needs at
   least one point. Besides the edge set and the counter it returns the
   sorted index vector idx, the closed vertex sequence hull, the threshold t
   and the number of `cross` evaluations, so that the contract can say which
   edges come out: exactly those between consecutive hull vertices, none of
   them a self-loop, around a sequence that turns strictly left everywhere
   except at the joint of the two chains. One point gives no edge; two points
   give the edge (0, 1).
   */
  method ComputeFastHull(p: seq<Point>)
    returns (edges: set<Edge>, count: int, idx: seq<int>, hull: seq<int>, t: int, ghost evals: int)
    requires |p| >= 1
    ensures |idx| == |p| && ValidIndices(p, idx) && multiset(idx) == multiset(Range(|p|))
    ensures SortedBy(p, idx)
    ensures ValidIndices(p, hull)
    ensures |p| >= 2 ==> |hull| >= 2 && hull[0] == idx[0]
    ensures |p| >= 2 ==> 3 <= t <= |hull| + 1 && hull[t - 2] == idx[|p| - 1]
    ensures 2 <= t <= |hull| + 2
    ensures forall m :: 0 <= m && m + 2 < |hull| && m + 3 != t ==> LeftTurnAt(p, hull, m)
    ensures |hull| >= 2 && |hull| + 1 != t ==> ClosingTurnLeft(p, hull)
    ensures forall m :: 0 <= m < |hull| ==> CycleEdge(hull, m) in edges
    ensures forall e :: e in edges ==> exists m :: 0 <= m < |hull| && e == CycleEdge(hull, m)
    ensures forall e :: e in edges ==> 0 <= e.i < e.j < |p|
    ensures |p| == 1 ==> edges == {} && count == 0
    ensures |p| == 2 ==> edges == {Edge(0, 1)} && count == 0
    ensures 2 * |p| - 2 <= count + |hull| && 0 <= count <= 4 * |p| - 3
    ensures count == evals
    ensures hull == HullCycle(p, idx) && t == |Chain(p, [], idx, 2)| + 1
  {
    idx := SortIndices(p);
    hull, t, edges, count, evals := MonotoneChain(p, idx);
    if |p| == 2 {
      assert 0 in idx && 1 in idx;
      assert {idx[0], idx[1]} == {0, 1};
    }
  }
}

=== FILE: geometry.dfy ===
/**
 Points, the orientation primitive and hull edges shared by both hull algorithms.

 Coordinates are exact reals instead of IEEE doubles, so the brute-force
 epsilon is kept as the exact constant 1/10^9.
 */
module Geometry {

  /** A point of the input, addressed by its index in the point sequence. */
  datatype Point = Point(x: real, y: real)

  /** The classification threshold of the brute-force hull (1e-9). */
  const Eps: real := 1.0 / 1000000000.0

  /** Twice the signed area of triangle a, b, c: positive when c lies left of a->b. */
  function Cross(a: Point, b: Point, c: Point): real
  {
    (b.x - a.x) * (c.y - a.y) - (b.y - a.y) * (c.x - a.x)
  }

  /** Swapping the first two arguments reverses the orientation. */
  lemma CrossAntisymmetric(a: Point, b: Point, c: Point)
    ensures Cross(b, a, c) == -Cross(a, b, c)
  {
  }

  /** The orientation is invariant under a cyclic shift of its arguments. */
  lemma CrossCyclic(a: Point, b: Point, c: Point)
    ensures Cross(b, c, a) == Cross(a, b, c)
  {
  }

  /** A triangle with two equal corners has no area. */
  lemma CrossDegenerate(a: Point, b: Point, c: Point)
    ensures c == a ==> Cross(a, b, c) == 0.0
    ensures b == a ==> Cross(a, b, c) == 0.0
    ensures c == b ==> Cross(a, b, c) == 0.0
  {
  }

  /** An undirected hull edge between two point indices; canonical when i <= j. */
  datatype Edge = Edge(i: int, j: int)

  /** The ordering `std::set<Edge>` is keyed on: lexicographic on (i, j). */
  predicate EdgeLess(e: Edge, f: Edge)
  {
    if e.i == f.i then e.j < f.j else e.i < f.i
  }

  /**
   EdgeLess is a strict total order whose incomparability is equality,
   so a set ordered by it deduplicates exactly the structurally equal edges.
   */
  lemma EdgeLessIsStrictTotalOrder(e: Edge, f: Edge, g: Edge)
    ensures !EdgeLess(e, e)
    ensures EdgeLess(e, f) && EdgeLess(f, g) ==> EdgeLess(e, g)
    ensures !EdgeLess(e, f) && !EdgeLess(f, e) <==> e == f
  {
  }

  /** The canonical edge between indices a and b: (min, max). */
  function MkEdge(a: int, b: int): (e: Edge)
    ensures e.i <= e.j
    ensures {e.i, e.j} == {a, b}
  {
    if a <= b then Edge(a, b) else Edge(b, a)
  }

  /** Both orientations of a pair give the same canonical edge. */
  lemma MkEdgeSymmetric(a: int, b: int)
    ensures MkEdge(a, b) == MkEdge(b, a)
  {
  }
}

=== FILE: index_sort.dfy ===
/**
 The index sort at the start of the monotone-chain hull: the indices
 0 .. n-1 ordered by x, then by y, of the points they address.

 The comparator is the one handed to `std::sort`. Only the result of the
 sort matters to the hull: a permutation of 0 .. n-1 that is non-decreasing
 under the comparator. An insertion sort produces one such permutation;
 `std::sort` may order points with equal coordinates differently.
 */
module IndexSort {
  import opened Geometry

  /** The sort comparator: by x, and by y when the x coordinates are equal. */
  predicate PointLess(a: Point, b: Point)
  {
    if a.x == b.x then a.y < b.y else a.x < b.x
  }

  /** PointLess is a strict weak order in which only equal points are unordered. */
  lemma PointLessIsStrictTotalOrder(a: Point, b: Point, c: Point)
    ensures !PointLess(a, a)
    ensures PointLess(a, b) ==> !PointLess(b, a)
    ensures PointLess(a, b) && PointLess(b, c) ==> PointLess(a, c)
    ensures !PointLess(a, b) && !PointLess(b, a) <==> a == b
  {
  }

  /** Every entry of s addresses a point of p. */
  predicate ValidIndices(p: seq<Point>, s: seq<int>)
  {
    forall m :: 0 <= m < |s| ==> 0 <= s[m] < |p|
  }

  /** No entry of s addresses a point that sorts before the point of an earlier entry. */
  ghost predicate SortedBy(p: seq<Point>, s: seq<int>)
    requires ValidIndices(p, s)
  {
    forall a, b :: 0 <= a < b < |s| ==> !PointLess(p[s[b]], p[s[a]])
  }

  /** No index occurs twice in s. */
  predicate DistinctEntries(s: seq<int>)
  {
    forall a, b :: 0 <= a < b < |s| ==> s[a] != s[b]
  }

  /** The indices 0 .. n-1 in increasing order. */
  function Range(n: nat): (r: seq<int>)
    ensures |r| == n
    ensures forall m :: 0 <= m < n ==> r[m] == m
  {
    seq(n, m => m)
  }

  /** Inserts v after the entries whose points sort strictly before p[v]. */
  function Insert(p: seq<Point>, s: seq<int>, v: int): (r: seq<int>)
    requires ValidIndices(p, s) && 0 <= v < |p|
    ensures |r| == |s| + 1
    ensures ValidIndices(p, r)
    ensures multiset(r) == multiset(s) + multiset{v}
    ensures forall u :: u in r <==> u in s || u == v
  {
    if |s| == 0 then [v]
    else if PointLess(p[s[0]], p[v]) then
      assert s == [s[0]] + s[1..];
      [s[0]] + Insert(p, s[1..], v)
    else [v] + s
  }

  /** Insertion into a sorted sequence keeps it sorted. */
  lemma {:induction false} InsertSorted(p: seq<Point>, s: seq<int>, v: int)
    requires ValidIndices(p, s) && 0 <= v < |p|
    requires SortedBy(p, s)
    ensures SortedBy(p, Insert(p, s, v))
  {
    if |s| > 0 && PointLess(p[s[0]], p[v]) {
      SortedTail(p, s);
      InsertSorted(p, s[1..], v);
      InsertedNotBelowHead(p, s, v);
      SortedCons(p, s[0], Insert(p, s[1..], v));
    } else if |s| > 0 {
      forall b | 0 <= b < |s| ensures !PointLess(p[s[b]], p[v]) {
        PointLessIsStrictTotalOrder(p[s[b]], p[s[0]], p[v]);
        PointLessIsStrictTotalOrder(p[s[b]], p[v], p[s[0]]);
      }
      SortedCons(p, v, s);
    }
  }

  /** Dropping the first entry keeps a sequence sorted. */
  lemma SortedTail(p: seq<Point>, s: seq<int>)
    requires ValidIndices(p, s) && |s| > 0 && SortedBy(p, s)
    ensures SortedBy(p, s[1..])
  {
    var t := s[1..];
    forall a, b | 0 <= a < b < |t| ensures !PointLess(p[t[b]], p[t[a]]) {
      assert t[a] == s[a + 1] && t[b] == s[b + 1];
    }
  }

  /** Prepending an entry that sorts no later than every entry keeps the order. */
  lemma SortedCons(p: seq<Point>, x: int, t: seq<int>)
    requires ValidIndices(p, t) && 0 <= x < |p| && SortedBy(p, t)
    requires forall b :: 0 <= b < |t| ==> !PointLess(p[t[b]], p[x])
    ensures SortedBy(p, [x] + t)
  {
    var r := [x] + t;
    forall a, b | 0 <= a < b < |r| ensures !PointLess(p[r[b]], p[r[a]]) {
      assert r[b] == t[b - 1];
      if a > 0 {
        assert r[a] == t[a - 1];
      }
    }
  }

  /** When v goes after the head, nothing in the rest sorts before the head. */
  lemma InsertedNotBelowHead(p: seq<Point>, s: seq<int>, v: int)
    requires ValidIndices(p, s) && 0 <= v < |p| && |s| > 0 && SortedBy(p, s)
    requires PointLess(p[s[0]], p[v])
    ensures forall b :: 0 <= b < |Insert(p, s[1..], v)| ==>
      !PointLess(p[Insert(p, s[1..], v)[b]], p[s[0]])
  {
    var t := s[1..];
    var r' := Insert(p, t, v);
    forall b | 0 <= b < |r'| ensures !PointLess(p[r'[b]], p[s[0]]) {
      assert r'[b] in r';
      if r'[b] == v {
        PointLessIsStrictTotalOrder(p[s[0]], p[v], p[v]);
      } else {
        var c :| 0 <= c < |t| && t[c] == r'[b];
        assert s[c + 1] == r'[b];
      }
    }
  }

  /** Inserting an index not yet present keeps the entries distinct. */
  lemma {:induction false} InsertDistinct(p: seq<Point>, s: seq<int>, v: int)
    requires ValidIndices(p, s) && 0 <= v < |p|
    requires DistinctEntries(s) && v !in s
    ensures DistinctEntries(Insert(p, s, v))
  {
    if |s| > 0 && PointLess(p[s[0]], p[v]) {
      var t := s[1..];
      assert DistinctEntries(t) by {
        forall a, b | 0 <= a < b < |t| ensures t[a] != t[b] {
          assert t[a] == s[a + 1] && t[b] == s[b + 1];
        }
      }
      assert v !in t by {
        assert forall m :: 0 <= m < |t| ==> t[m] == s[m + 1];
      }
      InsertDistinct(p, t, v);
      assert s[0] !in t by {
        forall m | 0 <= m < |t| ensures t[m] != s[0] {
          assert t[m] == s[m + 1];
        }
      }
      DistinctCons(s[0], Insert(p, t, v));
    } else if |s| > 0 {
      DistinctCons(v, s);
    }
  }

  /** Prepending an index absent from a distinct sequence keeps it distinct. */
  lemma DistinctCons(x: int, t: seq<int>)
    requires DistinctEntries(t) && x !in t
    ensures DistinctEntries([x] + t)
  {
    var r := [x] + t;
    forall a, b | 0 <= a < b < |r| ensures r[a] != r[b] {
      assert r[b] == t[b - 1];
      if a > 0 {
        assert r[a] == t[a - 1];
      }
    }
  }

  /** Sorts s by inserting its last entry into the sorted rest. */
  function InsertionSort(p: seq<Point>, s: seq<int>): (r: seq<int>)
    requires ValidIndices(p, s)
    ensures |r| == |s|
    ensures ValidIndices(p, r)
    ensures multiset(r) == multiset(s)
  {
    if |s| == 0 then []
    else
      assert s == s[..|s| - 1] + [s[|s| - 1]];
      Insert(p, InsertionSort(p, s[..|s| - 1]), s[|s| - 1])
  }

  /** Insertion sort yields a sequence sorted by the point comparator. */
  lemma {:induction false} InsertionSortSorted(p: seq<Point>, s: seq<int>)
    requires ValidIndices(p, s)
    ensures SortedBy(p, InsertionSort(p, s))
  {
    if |s| > 0 {
      InsertionSortSorted(p, s[..|s| - 1]);
      InsertSorted(p, InsertionSort(p, s[..|s| - 1]), s[|s| - 1]);
    }
  }

  /** Sorting distinct indices gives distinct indices. */
  lemma {:induction false} InsertionSortDistinct(p: seq<Point>, s: seq<int>)
    requires ValidIndices(p, s) && DistinctEntries(s)
    ensures DistinctEntries(InsertionSort(p, s))
  {
    if |s| > 0 {
      var init, v := s[..|s| - 1], s[|s| - 1];
      assert DistinctEntries(init) by {
        forall a, b | 0 <= a < b < |init| ensures init[a] != init[b] {
          assert init[a] == s[a] && init[b] == s[b];
        }
      }
      InsertionSortDistinct(p, init);
      var r := InsertionSort(p, init);
      assert v !in r by {
        assert v in r <==> v in multiset(r);
        assert v in init <==> v in multiset(init);
        assert v !in init by {
          forall m | 0 <= m < |init| ensures init[m] != v {
            assert init[m] == s[m];
          }
        }
      }
      InsertDistinct(p, r, v);
    }
  }

  /**
   The index vector of the monotone chain: 0 .. n-1 filled in, then sorted.
   The result is a permutation of 0 .. n-1, non-decreasing under PointLess.
   */
  method SortIndices(p: seq<Point>) returns (idx: seq<int>)
    ensures |idx| == |p|
    ensures ValidIndices(p, idx)
    ensures multiset(idx) == multiset(Range(|p|))
    ensures forall v :: v in idx <==> 0 <= v < |p|
    ensures DistinctEntries(idx)
    ensures SortedBy(p, idx)
  {
    idx := InsertionSort(p, Range(|p|));
    InsertionSortSorted(p, Range(|p|));
    InsertionSortDistinct(p, Range(|p|));
    forall v ensures v in idx <==> 0 <= v < |p| {
      assert v in idx <==> v in multiset(idx);
      assert v in Range(|p|) <==> v in multiset(Range(|p|));
      if 0 <= v < |p| {
        assert Range(|p|)[v] == v;
      }
    }
  }
}

=== FILE: reference_input.dfy ===
/**
 The fixed eight-point input the demo window hands to both hulls, and the
 brute-force edge set it produces: the boundary cycle 0, 2, 3, 6, 7, with
 points 1, 4 and 5 inside.
 */
module ReferenceInput {
  import opened Geometry
  import opened SlowHull

  const RefPoints: seq<Point> := [
    Point(100.0, 100.0), Point(214.0, 150.0), Point(303.0, 80.0), Point(350.0, 251.0),
    Point(200.0, 300.0), Point(150.0, 250.0), Point(200.0, 360.0), Point(120.0, 336.0)
  ]

  const RefEdges: set<Edge> := {Edge(0, 2), Edge(2, 3), Edge(3, 6), Edge(6, 7), Edge(0, 7)}

  /**
   Each boundary pair passes the edge test: every other point lies on one
   closed side of its line, the right side for (0, 7) and the left side for
   the others.
   */
  lemma RefEdgeOneSide(i: int, j: int)
    requires Edge(i, j) in RefEdges
    ensures IsSlowEdge(RefPoints, i, j)
  {
    var p := RefPoints;
    if i == 0 && j == 7 {
      assert AllRightOrOn(p, 0, 7) by {
        forall k | 0 <= k < |p| && k != 0 && k != 7 ensures Cross(p[0], p[7], p[k]) <= Eps {
          assert k == 1 || k == 2 || k == 3 || k == 4 || k == 5 || k == 6;
        }
      }
    } else {
      assert (i, j) == (0, 2) || (i, j) == (2, 3) || (i, j) == (3, 6) || (i, j) == (6, 7);
      assert AllLeftOrOn(p, i, j) by {
        forall k | 0 <= k < |p| && k != i && k != j ensures Cross(p[i], p[j], p[k]) >= -Eps {
          assert k == 0 || k == 1 || k == 2 || k == 3 || k == 4 || k == 5 || k == 6 || k == 7;
        }
      }
    }
    SlowEdgeIffOneSide(p, i, j);
  }

  /** On the reference input the brute-force hull is exactly the boundary cycle 0, 2, 3, 6, 7. */
  lemma ReferenceSlowHull()
    ensures SlowEdges(RefPoints) == RefEdges
  {
    var p := RefPoints;
    RefEdgeOneSide(0, 2);
    RefEdgeOneSide(0, 7);
    RefEdgeOneSide(2, 3);
    RefEdgeOneSide(3, 6);
    RefEdgeOneSide(6, 7);
    assert SeesPos(p, 0, 1, 3) && SeesNeg(p, 0, 1, 2);
    assert SeesPos(p, 0, 3, 4) && SeesNeg(p, 0, 3, 1);
    assert SeesPos(p, 0, 4, 5) && SeesNeg(p, 0, 4, 1);
    assert SeesPos(p, 0, 5, 7) && SeesNeg(p, 0, 5, 1);
    assert SeesPos(p, 0, 6, 5) && SeesNeg(p, 0, 6, 1);
    assert SeesPos(p, 1, 2, 3) && SeesNeg(p, 1, 2, 0);
    assert SeesPos(p, 1, 3, 0) && SeesNeg(p, 1, 3, 2);
    assert SeesPos(p, 1, 4, 0) && SeesNeg(p, 1, 4, 2);
    assert SeesPos(p, 1, 5, 0) && SeesNeg(p, 1, 5, 2);
    assert SeesPos(p, 1, 6, 0) && SeesNeg(p, 1, 6, 2);
    assert SeesPos(p, 1, 7, 0) && SeesNeg(p, 1, 7, 2);
    assert SeesPos(p, 2, 4, 0) && SeesNeg(p, 2, 4, 3);
    assert SeesPos(p, 2, 5, 0) && SeesNeg(p, 2, 5, 3);
    assert SeesPos(p, 2, 6, 0) && SeesNeg(p, 2, 6, 3);
    assert SeesPos(p, 2, 7, 0) && SeesNeg(p, 2, 7, 3);
    assert SeesPos(p, 3, 4, 0) && SeesNeg(p, 3, 4, 6);
    assert SeesPos(p, 3, 5, 0) && SeesNeg(p, 3, 5, 4);
    assert SeesPos(p, 3, 7, 0) && SeesNeg(p, 3, 7, 6);
    assert SeesPos(p, 4, 5, 0) && SeesNeg(p, 4, 5, 6);
    assert SeesPos(p, 4, 6, 0) && SeesNeg(p, 4, 6, 1);
    assert SeesPos(p, 4, 7, 0) && SeesNeg(p, 4, 7, 3);
    assert SeesPos(p, 5, 6, 7) && SeesNeg(p, 5, 6, 0);
    assert SeesPos(p, 5, 7, 0) && SeesNeg(p, 5, 7, 1);
    forall e | e in SlowEdges(p) ensures e in RefEdges {
      var i, j := e.i, e.j;
      assert 0 <= i < j < 8 && IsSlowEdge(p, i, j);
    }
    assert RefEdges <= SlowEdges(p);
  }
}

=== FILE: slow_hull.dfy ===
/**
 The brute-force hull (`computeSlowHull`): a pair of points is a hull edge
 unless one third point has `cross` above Eps and another has `cross` below
 -Eps. The threshold bounds the cross product, which is the point's distance
 from the line times the pair's length, not the distance itself.
 */
module SlowHull {
  import opened Geometry

  /** Point k is a third point lying strictly left of the directed line p[i] -> p[j]. */
  predicate SeesPos(p: seq<Point>, i: int, j: int, k: int)
    requires 0 <= i < |p| && 0 <= j < |p| && 0 <= k < |p|
  {
    k != i && k != j && Cross(p[i], p[j], p[k]) > Eps
  }

  /** Point k is a third point lying strictly right of the directed line p[i] -> p[j]. */
  predicate SeesNeg(p: seq<Point>, i: int, j: int, k: int)
    requires 0 <= i < |p| && 0 <= j < |p| && 0 <= k < |p|
  {
    k != i && k != j && Cross(p[i], p[j], p[k]) < -Eps
  }

  /** Some point among indices 0 .. k-1 has been seen strictly on the left. */
  ghost predicate PosBefore(p: seq<Point>, i: int, j: int, k: int)
    requires 0 <= i < |p| && 0 <= j < |p| && 0 <= k <= |p|
  {
    exists a :: 0 <= a < k && SeesPos(p, i, j, a)
  }

  /** Some point among indices 0 .. k-1 has been seen strictly on the right. */
  ghost predicate NegBefore(p: seq<Point>, i: int, j: int, k: int)
    requires 0 <= i < |p| && 0 <= j < |p| && 0 <= k <= |p|
  {
    exists a :: 0 <= a < k && SeesNeg(p, i, j, a)
  }

  /** Both signs have been seen among indices 0 .. k-1. */
  ghost predicate BothBefore(p: seq<Point>, i: int, j: int, k: int)
    requires 0 <= i < |p| && 0 <= j < |p| && 0 <= k <= |p|
  {
    PosBefore(p, i, j, k) && NegBefore(p, i, j, k)
  }

  /** The brute-force edge test: no two other points lie strictly on opposite sides. */
  ghost predicate IsSlowEdge(p: seq<Point>, i: int, j: int)
    requires 0 <= i < |p| && 0 <= j < |p|
  {
    !((exists k :: 0 <= k < |p| && SeesPos(p, i, j, k)) &&
      (exists k :: 0 <= k < |p| && SeesNeg(p, i, j, k)))
  }

  /** The edge set the brute-force hull is meant to produce. */
  ghost function SlowEdges(p: seq<Point>): set<Edge>
  {
    set i, j | 0 <= i < j < |p| && IsSlowEdge(p, i, j) :: Edge(i, j)
  }

  /**
   The index at which the scan over k stops for pair (i, j): the first k after
   which both signs have been seen, or n - 1 when the scan runs to the end.
   */
  ghost function FirstBoth(p: seq<Point>, i: int, j: int, k: int): int
    requires 0 <= i < |p| && 0 <= j < |p| && 0 <= k <= |p|
    decreases |p| - k
  {
    if k >= |p| - 1 then |p| - 1
    else if BothBefore(p, i, j, k + 1) then k
    else FirstBoth(p, i, j, k + 1)
  }

  /** The index k at which the scan over k for pair (i, j) stops: the `break`, or n - 1. */
  ghost function KStop(p: seq<Point>, i: int, j: int): int
    requires 0 <= i < j < |p|
  {
    FirstBoth(p, i, j, 0)
  }

  /** Counter increments contributed by pair (i, j): one per k up to and including KStop. */
  ghost function PairSteps(p: seq<Point>, i: int, j: int): int
    requires 0 <= i < j < |p|
  {
    KStop(p, i, j) + 1
  }

  /** Counter increments of the pairs (i, j') with i < j' < j. */
  ghost function RowSteps(p: seq<Point>, i: int, j: int): int
    requires 0 <= i && i + 1 <= j <= |p|
    decreases j
  {
    if j == i + 1 then 0 else RowSteps(p, i, j - 1) + PairSteps(p, i, j - 1)
  }

  /** Counter increments of all pairs whose first index is below i. */
  ghost function StepsBefore(p: seq<Point>, i: int): int
    requires 0 <= i <= |p|
    decreases i
  {
    if i == 0 then 0 else StepsBefore(p, i - 1) + RowSteps(p, i - 1, |p|)
  }

  /** Number of pairs (r, s), r < s < n, whose first index r is below i. */
  function PairsBefore(n: int, i: int): int
    requires 0 <= i <= n
  {
    if i == 0 then 0 else PairsBefore(n, i - 1) + (n - i)
  }

  /** The counter value the brute force hull reaches on n points when no scan breaks early. */
  function MaxSlowCount(n: nat): int
  {
    n * (n * (n - 1) / 2)
  }

  /** edges holds exactly the brute-force edges of the pairs that precede (i, j) in loop order. */
  ghost predicate EdgesUpTo(p: seq<Point>, edges: set<Edge>, i: int, j: int)
  {
    forall e :: e in edges <==>
      (0 <= e.i < e.j < |p| && IsSlowEdge(p, e.i, e.j) &&
       (e.i < i || (e.i == i && e.j < j)))
  }

  /** The scan over k for one pair: whether both signs were seen, and the increments made. */
  method ScanPair(p: seq<Point>, i: int, j: int) returns (both: bool, steps: int)
    requires 0 <= i < j < |p|
    ensures both <==> !IsSlowEdge(p, i, j)
    ensures steps == PairSteps(p, i, j)
  {
    var pos, neg := false, false;
    steps := 0;
    var k := 0;
    while k < |p|
      invariant 0 <= k <= |p|
      invariant pos <==> PosBefore(p, i, j, k)
      invariant neg <==> NegBefore(p, i, j, k)
      invariant !(pos && neg)
      invariant steps == k
      invariant KStop(p, i, j) == FirstBoth(p, i, j, k)
    {
      steps := steps + 1;
      if k != i && k != j {
        var s := Cross(p[i], p[j], p[k]);
        if s > Eps {
          pos := true;
        } else if s < -Eps {
          neg := true;
        }
        if pos && neg {
          SeenStep(p, i, j, k);
          break;
        }
      }
      SeenStep(p, i, j, k);
      k := k + 1;
    }
    both := pos && neg;
  }

  /** Extending the scanned prefix by index k adds exactly what k itself sees. */
  lemma SeenStep(p: seq<Point>, i: int, j: int, k: int)
    requires 0 <= i < |p| && 0 <= j < |p| && 0 <= k < |p|
    ensures PosBefore(p, i, j, k + 1) <==> PosBefore(p, i, j, k) || SeesPos(p, i, j, k)
    ensures NegBefore(p, i, j, k + 1) <==> NegBefore(p, i, j, k) || SeesNeg(p, i, j, k)
  {
    if PosBefore(p, i, j, k + 1) && !SeesPos(p, i, j, k) {
      var a :| 0 <= a < k + 1 && SeesPos(p, i, j, a);
      assert a < k;
    }
    if NegBefore(p, i, j, k + 1) && !SeesNeg(p, i, j, k) {
      var a :| 0 <= a < k + 1 && SeesNeg(p, i, j, a);
      assert a < k;
    }
  }

  /**
   The brute-force hull: every pair i < j is an edge exactly when the edge
   test holds, whatever the early break did; the counter is the sum of the
   per-pair increments.
   */
  method ComputeSlowHull(p: seq<Point>) returns (edges: set<Edge>, count: int)
    ensures forall e :: e in edges ==> 0 <= e.i < e.j < |p|
    ensures forall i, j :: 0 <= i < j < |p| ==> (Edge(i, j) in edges <==> IsSlowEdge(p, i, j))
    ensures edges == SlowEdges(p)
    ensures count == StepsBefore(p, |p|)
    ensures 0 <= count <= MaxSlowCount(|p|)
  {
    var n := |p|;
    edges := {};
    count := 0;
    var i := 0;
    while i < n
      invariant 0 <= i <= n
      invariant EdgesUpTo(p, edges, i, 0)
      invariant count == StepsBefore(p, i)
    {
      var j := i + 1;
      while j < n
        invariant i + 1 <= j <= n
        invariant EdgesUpTo(p, edges, i, j)
        invariant count == StepsBefore(p, i) + RowSteps(p, i, j)
      {
        var both, steps := ScanPair(p, i, j);
        count := count + steps;
        if !both {
          edges := edges + {MkEdge(i, j)};
        }
        j := j + 1;
      }
      i := i + 1;
    }
    assert edges == SlowEdges(p) by {
      forall e | e in SlowEdges(p) ensures e in edges { }
    }
    StepsBounded(p, n);
    MaxSlowCountIsFullSteps(n);
  }

  /**
   The scan for pair (i, j) stops at the first k after which both signs
   have been seen, and runs to n - 1 when that never happens before the end.
   */
  lemma KStopCharacterised(p: seq<Point>, i: int, j: int)
    requires 0 <= i < j < |p|
    ensures 0 <= KStop(p, i, j) <= |p| - 1
    ensures KStop(p, i, j) < |p| - 1 ==> BothBefore(p, i, j, KStop(p, i, j) + 1)
    ensures forall k :: 0 < k <= KStop(p, i, j) ==> !BothBefore(p, i, j, k)
  {
    FirstBothFrom(p, i, j, 0);
  }

  /**
   A scan started at k stops at or after k, stops before n - 1 only on seeing
   both signs, and sees both at no earlier index.
   */
  lemma {:induction false} FirstBothFrom(p: seq<Point>, i: int, j: int, k: int)
    requires 0 <= i < j < |p| && 0 <= k <= |p| - 1
    ensures k <= FirstBoth(p, i, j, k) <= |p| - 1
    ensures FirstBoth(p, i, j, k) < |p| - 1 ==> BothBefore(p, i, j, FirstBoth(p, i, j, k) + 1)
    ensures forall m :: k < m <= FirstBoth(p, i, j, k) ==> !BothBefore(p, i, j, m)
    decreases |p| - k
  {
    if k < |p| - 1 && !BothBefore(p, i, j, k + 1) {
      FirstBothFrom(p, i, j, k + 1);
    }
  }

  /** Seeing both signs among a prefix of the k's stays true for every longer prefix. */
  lemma BothBeforeMonotone(p: seq<Point>, i: int, j: int, a: int, b: int)
    requires 0 <= i < |p| && 0 <= j < |p| && 0 <= a <= b <= |p|
    ensures BothBefore(p, i, j, a) ==> BothBefore(p, i, j, b)
  {
  }

  /** Both signs are seen among k <= n - 2, so the scan breaks before its last index. */
  ghost predicate BothEarly(p: seq<Point>, i: int, j: int)
    requires 0 <= i < |p| && 0 <= j < |p| && 1 <= |p|
  {
    BothBefore(p, i, j, |p| - 1)
  }

  /**
   A pair contributes the full n increments exactly when both signs are not
   seen among k <= n - 2; a break on the very last k still costs n.
   */
  lemma PairStepsFull(p: seq<Point>, i: int, j: int)
    requires 0 <= i < j < |p|
    ensures PairSteps(p, i, j) == |p| <==> !BothEarly(p, i, j)
  {
    KStopCharacterised(p, i, j);
    var r := KStop(p, i, j);
    if r < |p| - 1 {
      BothBeforeMonotone(p, i, j, r + 1, |p| - 1);
    }
  }

  /** n increments for each pair (i, j') with i < j' < j. */
  function FullRow(n: int, i: int, j: int): int
    requires i + 1 <= j
    decreases j - i
  {
    if j == i + 1 then 0 else FullRow(n, i, j - 1) + n
  }

  /** n increments for each pair whose first index is below i. */
  function FullSteps(n: int, i: int): int
    requires 0 <= i <= n
  {
    if i == 0 then 0 else FullSteps(n, i - 1) + FullRow(n, i - 1, n)
  }

  /**
   Row i adds at most n per pair, and exactly n per pair when every pair of
   the row scans to the end.
   */
  lemma {:induction false} RowStepsBounded(p: seq<Point>, i: int, j: int)
    requires 0 <= i && i + 1 <= j <= |p|
    ensures 0 <= RowSteps(p, i, j) <= FullRow(|p|, i, j)
    ensures RowSteps(p, i, j) == FullRow(|p|, i, j) <==>
      forall s :: i < s < j ==> PairSteps(p, i, s) == |p|
    decreases j
  {
    if j > i + 1 {
      RowStepsBounded(p, i, j - 1);
      KStopCharacterised(p, i, j - 1);
    }
  }

  /**
   The counter over the rows below i is bounded by n increments per pair, and
   reaches that bound exactly when every pair contributes n.
   */
  lemma {:induction false} StepsBounded(p: seq<Point>, i: int)
    requires 0 <= i <= |p|
    ensures 0 <= StepsBefore(p, i) <= FullSteps(|p|, i)
    ensures StepsBefore(p, i) == FullSteps(|p|, i) <==>
      forall r, s :: 0 <= r < i && r < s < |p| ==> PairSteps(p, r, s) == |p|
    decreases i
  {
    if i > 0 {
      StepsBounded(p, i - 1);
      RowStepsBounded(p, i - 1, |p|);
    }
  }

  /** n increments for each pair of a row prefix, in closed form. */
  lemma {:induction false} FullRowClosedForm(n: int, i: int, j: int)
    requires i + 1 <= j
    ensures FullRow(n, i, j) == n * (j - i - 1)
    decreases j - i
  {
    if j > i + 1 {
      FullRowClosedForm(n, i, j - 1);
      assert n * (j - i - 1) == n * (j - i - 2) + n;
    }
  }

  /** n increments for each pair of the first i rows, in closed form. */
  lemma {:induction false} FullStepsClosedForm(n: int, i: int)
    requires 0 <= i <= n
    ensures FullSteps(n, i) == n * PairsBefore(n, i)
  {
    if i > 0 {
      FullStepsClosedForm(n, i - 1);
      FullRowClosedForm(n, i - 1, n);
      assert n * PairsBefore(n, i) == n * PairsBefore(n, i - 1) + n * (n - i);
    }
  }

  /** Closed form of the pair count: 2 * PairsBefore(n, i) == i * (2n - 1 - i). */
  lemma {:induction false} PairsBeforeClosedForm(n: int, i: int)
    requires 0 <= i <= n
    ensures 2 * PairsBefore(n, i) == i * (2 * n - 1 - i)
    ensures i == n ==> PairsBefore(n, i) == n * (n - 1) / 2
  {
    if i > 0 {
      PairsBeforeClosedForm(n, i - 1);
      assert i * (2 * n - 1 - i) == (i - 1) * (2 * n - 1 - (i - 1)) + 2 * (n - i);
    }
    if i == n {
      assert 2 * PairsBefore(n, n) == n * (n - 1);
    }
  }

  /** n increments for every one of the n(n-1)/2 pairs. */
  lemma MaxSlowCountIsFullSteps(n: nat)
    ensures FullSteps(n, n) == MaxSlowCount(n)
  {
    FullStepsClosedForm(n, n);
    PairsBeforeClosedForm(n, n);
  }

  /**
   The brute-force counter reaches n * n(n-1)/2 exactly when no pair has
   seen both signs among the indices k <= n - 2.
   */
  lemma SlowCountMaximal(p: seq<Point>)
    ensures StepsBefore(p, |p|) == MaxSlowCount(|p|) <==>
      forall i, j :: 0 <= i < j < |p| ==> !BothEarly(p, i, j)
  {
    StepsBounded(p, |p|);
    MaxSlowCountIsFullSteps(|p|);
    forall i, j | 0 <= i < j < |p| {
      PairStepsFull(p, i, j);
    }
  }

  /**
   A maximal counter does not mean that no pair saw both signs: on these four
   points the scan of pair (0, 1) sees both signs only at its last index k = 3,
   so every pair still costs n increments while (0, 1) is not an edge.
   */
  lemma FullCountDespiteLateBreak()
    ensures StepsBefore(LateBreakPoints, 4) == MaxSlowCount(4)
    ensures !IsSlowEdge(LateBreakPoints, 0, 1)
  {
    LateBreakSigns();
    SlowCountMaximal(LateBreakPoints);
    LateBreakPair01Both();
  }

  /** On LateBreakPoints no pair sees both signs before its last index k = 3. */
  lemma LateBreakSigns()
    ensures forall i, j :: 0 <= i < j < 4 ==> !BothEarly(LateBreakPoints, i, j)
  {
    forall i, j | 0 <= i < j < 4 ensures !BothEarly(LateBreakPoints, i, j) {
      LateBreakPairOneSided(i, j);
    }
  }

  /**
   Among k = 0, 1, 2 each pair of LateBreakPoints sees one sign at most:
   nothing strictly left of (0, 2) and (1, 3), nothing strictly right of the
   other four pairs.
   */
  lemma LateBreakPairOneSided(i: int, j: int)
    requires 0 <= i < j < 4
    ensures !BothEarly(LateBreakPoints, i, j)
  {
    var p := LateBreakPoints;
    if (i, j) == (0, 2) || (i, j) == (1, 3) {
      forall a | 0 <= a < 3 ensures !SeesPos(p, i, j, a) {
        assert a == 0 || a == 1 || a == 2;
      }
      assert !PosBefore(p, i, j, 3);
    } else {
      assert (i, j) == (0, 1) || (i, j) == (0, 3) || (i, j) == (1, 2) || (i, j) == (2, 3);
      forall a | 0 <= a < 3 ensures !SeesNeg(p, i, j, a) {
        assert a == 0 || a == 1 || a == 2;
      }
      assert !NegBefore(p, i, j, 3);
    }
  }

  /** Pair (0, 1) sees point 2 on its left and point 3 on its right. */
  lemma LateBreakPair01Both()
    ensures !IsSlowEdge(LateBreakPoints, 0, 1)
  {
    assert SeesPos(LateBreakPoints, 0, 1, 2);
    assert SeesNeg(LateBreakPoints, 0, 1, 3);
    OppositeSidesNotEdge(LateBreakPoints, 0, 1, 2, 3);
  }

  /** (0, 0), (1, 0), (0, 1), (0, -1): the witness of FullCountDespiteLateBreak. */
  const LateBreakPoints: seq<Point> :=
    [Point(0.0, 0.0), Point(1.0, 0.0), Point(0.0, 1.0), Point(0.0, -1.0)]

  /** When every pair is an edge, no scan breaks and the counter is maximal. */
  lemma AllEdgesGivesMaxCount(p: seq<Point>)
    requires forall i, j :: 0 <= i < j < |p| ==> IsSlowEdge(p, i, j)
    ensures StepsBefore(p, |p|) == MaxSlowCount(|p|)
  {
    forall i, j | 0 <= i < j < |p| ensures !BothEarly(p, i, j) {
      assert IsSlowEdge(p, i, j);
    }
    SlowCountMaximal(p);
  }

  /** Every point other than i and j has `cross` at least -Eps. */
  ghost predicate AllLeftOrOn(p: seq<Point>, i: int, j: int)
    requires 0 <= i < |p| && 0 <= j < |p|
  {
    forall k :: 0 <= k < |p| && k != i && k != j ==> Cross(p[i], p[j], p[k]) >= -Eps
  }

  /** Every point other than i and j has `cross` at most Eps. */
  ghost predicate AllRightOrOn(p: seq<Point>, i: int, j: int)
    requires 0 <= i < |p| && 0 <= j < |p|
  {
    forall k :: 0 <= k < |p| && k != i && k != j ==> Cross(p[i], p[j], p[k]) <= Eps
  }

  /** Two other points strictly on opposite sides rule the pair out. */
  lemma OppositeSidesNotEdge(p: seq<Point>, i: int, j: int, a: int, b: int)
    requires 0 <= i < |p| && 0 <= j < |p| && 0 <= a < |p| && 0 <= b < |p|
    requires SeesPos(p, i, j, a) && SeesNeg(p, i, j, b)
    ensures !IsSlowEdge(p, i, j)
  {
  }

  /** A pair is a brute-force edge exactly when all other points lie on one side of its line. */
  lemma SlowEdgeIffOneSide(p: seq<Point>, i: int, j: int)
    requires 0 <= i < |p| && 0 <= j < |p|
    ensures IsSlowEdge(p, i, j) <==> AllLeftOrOn(p, i, j) || AllRightOrOn(p, i, j)
  {
    if IsSlowEdge(p, i, j) {
      if !AllLeftOrOn(p, i, j) && !AllRightOrOn(p, i, j) {
        var a :| 0 <= a < |p| && a != i && a != j && Cross(p[i], p[j], p[a]) < -Eps;
        var b :| 0 <= b < |p| && b != i && b != j && Cross(p[i], p[j], p[b]) > Eps;
        assert SeesNeg(p, i, j, a) && SeesPos(p, i, j, b);
        assert false;
      }
    } else {
      var a :| 0 <= a < |p| && SeesPos(p, i, j, a);
      var b :| 0 <= b < |p| && SeesNeg(p, i, j, b);
      assert !AllLeftOrOn(p, i, j) by {
        assert b != i && b != j && Cross(p[i], p[j], p[b]) < -Eps;
      }
      assert !AllRightOrOn(p, i, j) by {
        assert a != i && a != j && Cross(p[i], p[j], p[a]) > Eps;
      }
    }
  }

  /** The edge test does not depend on the direction of the pair, so (min, max) loses nothing. */
  lemma SlowEdgeSymmetric(p: seq<Point>, i: int, j: int)
    requires 0 <= i < |p| && 0 <= j < |p|
    ensures IsSlowEdge(p, i, j) <==> IsSlowEdge(p, j, i)
  {
    forall k | 0 <= k < |p|
      ensures SeesPos(p, i, j, k) <==> SeesNeg(p, j, i, k)
      ensures SeesNeg(p, i, j, k) <==> SeesPos(p, j, i, k)
    {
      CrossAntisymmetric(p[i], p[j], p[k]);
    }
  }

  /** Fewer than two points give no edge; two points give exactly the edge (0, 1). */
  lemma SlowEdgesSmall(p: seq<Point>)
    ensures |p| < 2 ==> SlowEdges(p) == {}
    ensures |p| == 2 ==> SlowEdges(p) == {Edge(0, 1)}
  {
    if |p| == 2 {
      assert IsSlowEdge(p, 0, 1);
      assert Edge(0, 1) in SlowEdges(p);
    }
  }

  /** All points on one line: every pair passes the edge test. */
  lemma CollinearEveryPairIsEdge(p: seq<Point>)
    requires forall a, b, c :: 0 <= a < |p| && 0 <= b < |p| && 0 <= c < |p| ==>
      Cross(p[a], p[b], p[c]) == 0.0
    ensures forall i, j :: 0 <= i < j < |p| ==> Edge(i, j) in SlowEdges(p)
  {
    forall i, j | 0 <= i < j < |p| ensures Edge(i, j) in SlowEdges(p) {
      assert !exists k :: 0 <= k < |p| && SeesPos(p, i, j, k);
    }
  }
}
